=== FILE: README.md ===
# QnA Maker client — a Dafny model of its decision layer

The repository is a C# client for the QnA Maker knowledge-base service (API
version 2.0). Each of its six operations (create, delete, download,
generate-answer, publish, update) builds one HTTP request. The request goes to
`https://westus.api.cognitive.microsoft.com/qnamaker/v2.0/knowledgebases/`
and carries the subscription key in the `Ocp-Apim-Subscription-Key` header.
The client then turns the response into a value or an exception. This project
models the logic between the caller and the wire:

- the local argument checks of create (name, at most 1000 Q-A pairs, at most 5 URLs) and of the
  parameter overload of generate-answer (non-empty question);
- the default-filling parameter overloads (null lists and null update actions become empty ones);
- the route table: each operation's HTTP method, relative path and payload;
- the body-attach rule of both `Send` variants: a body only when there is a payload AND the method is POST;
- the three-way classification of `GetResponseContent`;
- the quote stripping of the download result;
- the request and error data contracts: defaults, serialized member names, and the knowledge-base
  id being kept out of the body.

Modules: `Nullable` (C# null as `Option`), `Json` (JSON values, and binding them to records by member name, with
the limits listed under "## Left out"), `Requests`, `Errors`, `Http` (request record, dispatcher), `Quotes`,
`Client` (checks, routes, operations, overloads).

The transport, `WebUtility.HtmlDecode` and the JSON text parser are outside the model. They are the
three fields of a `Http.Wire` record of plain functions that every call takes as a parameter.
Response types are bound by a caller-supplied `bind: Json -> Bound<T>`. A call is modelled as a
`Http.Call`: the request it sent (none when a local check failed) and the value returned or the
exception thrown.

Three behaviours of the code are easy to misread; the model follows the code:

- The doc comments of both download overloads (QnaMakerClient.cs:145 and :160) name
  `QnaMakerError` as an exception they throw. But download uses the raw-text `Send`, which neither
  HTML-decodes the body nor looks at the status. A failure response (a 404 with an error body,
  say) is therefore not turned into a service error: its quote-stripped body is returned as the
  blob URL.
- A failure response whose non-empty body is not JSON does not become a status-only error. The
  JSON reader throws its own exception (`JsonReader`), and so does an error object holding an
  object or array in `code` or `message`. A body that reads as null (the JSON literal `null`, the
  JSON empty string, or text with no JSON value at all, i.e. whitespace only) ends in a null
  dereference (`NullReference`). Only an empty body gives the status-only error.
- The update payload is built, but the PATCH request carries no body, because the body-attach rule
  tests for POST.

## Model

| member | source | states |
|---|---|---|
| Client.ValidateCreate | QnaMakerClient.cs:91-102 | The create checks accept exactly the requests with a non-empty name, at most 1000 pairs and at most 5 URLs, where a null list passes. The first failing check in the order name, pairs, urls decides the error: ArgumentNull("Name"), or ArgumentOutOfRange for QnaPairs or Urls with the source's message. |
| Client.LimitMessages | QnaMakerClient.cs:17-18 | The two range messages read "Max 1000 Q-A pairs per request" and "Max 5 urls per request". |
| Client.CreateLimitsAreInclusive | QnaMakerClient.cs:95-102 | Exactly 1000 pairs and exactly 5 URLs are accepted; 1001 pairs, or 6 URLs, are refused with the matching error. |
| Client.CreateKnowledgeBase | QnaMakerClient.cs:89-105 | A request is sent iff the create checks pass. A refused call sends nothing and throws exactly the error the create checks name. A sent request is a POST to `create` whose body is the serialized request. It is exactly the operation's route request (`RequestFor`), so it carries the subscription-key header. A sent call returns the classification of the response to that request. |
| Client.FreshCreateRequestRefused | QnaMaker/Requests/CreateKnowledgeBaseRequest.cs:24 | A freshly constructed create request has no name, so create refuses it with ArgumentNull("Name") and sends nothing. |
| Client.CreateRequestFrom | QnaMakerClient.cs:63-79 | The create overload with loose arguments keeps the name, keeps lists that are given, and turns a null list into an empty one. |
| Client.CreateKnowledgeBaseWith | QnaMakerClient.cs:63-80 | The loose-argument create sends iff the name is non-empty and the given lists are within the limits. A refused call throws exactly the error the create checks name for the request with defaults filled in, so an empty name gives ArgumentNull("Name"). A sent request is a POST to `create`. It is exactly the route request for the request built with defaults filled in, so it carries the subscription-key header. The body it sends reads back as the arguments, with null lists replaced by empty ones. A sent call returns the classification of the response to that request. |
| Client.CreateListsDefaultToEmpty | QnaMakerClient.cs:63-73 | Leaving out both lists creates the knowledge base with the name and two empty lists. |
| Client.GenerateAnswerWith | QnaMakerClient.cs:187-199 | The loose-argument generate-answer sends iff the question is neither null nor empty. Otherwise it throws ArgumentNull("question") and sends nothing. When it sends, it behaves as the object overload on the request built from id, question and top, where `top` defaults to 1. |
| Client.GenerateAnswerTopDefaultsToOne | QnaMakerClient.cs:187-198 | Called without `top`, the loose-argument generate-answer sends a body with `top` of 1. |
| Client.GenerateAnswerKnowledgeBase | QnaMakerClient.cs:208-211 | The object overload always sends, with no question check: a POST to `{id}/generateAnswer` whose body is the serialized request. It is exactly the operation's route request (`RequestFor`), so it carries the subscription-key header. A sent call returns the classification of the response to that request. |
| Client.UpdateRequestFrom | QnaMakerClient.cs:259-276 | The loose-argument update keeps the id and any given actions, and turns a null add or delete into an empty UpdateActions. |
| Client.UpdateKnowledgeBaseWith | QnaMakerClient.cs:259-276 | Whatever actions are given, null or not, the loose-argument update sends the same request: a PATCH to `{id}`. A sent call returns the classification of the response to that request. |
| Client.UpdateKnowledgeBase | QnaMakerClient.cs:285-288 | Update sends a PATCH to `{id}` with no body. It is exactly the operation's route request (`RequestFor`), so it carries the subscription-key header. A sent call returns the classification of the response to that request. |
| Client.UpdatePayloadDropped | QnaMakerClient.cs:285-304 | Update hands the dispatcher a payload, and the request still has no content, because the method is not POST. |
| Client.DeleteKnowledgeBase | QnaMakerClient.cs:132-135 | Delete sends a DELETE to `{id}` with no body. It is exactly the operation's route request (`RequestFor`), so it carries the subscription-key header. A sent call returns the classification of the response to that request. |
| Client.DeleteKnowledgeBaseWith | QnaMakerClient.cs:118-124 | The id overload of delete sends a DELETE to that id with no body. It is exactly the route request of delete for that id, so it carries the subscription-key header. A sent call returns the classification of the response to that request. |
| Client.PublishKnowledgeBase | QnaMakerClient.cs:240-243 | Publish sends a PUT to `{id}` with no body. It is exactly the operation's route request (`RequestFor`), so it carries the subscription-key header. A sent call returns the classification of the response to that request. |
| Client.PublishKnowledgeBaseWith | QnaMakerClient.cs:225-231 | The id overload of publish sends a PUT to that id with no body. It is exactly the route request of publish for that id, so it carries the subscription-key header. A sent call returns the classification of the response to that request. |
| Client.DownloadKnowledgeBase | QnaMakerClient.cs:164-171 | Download sends a GET to `{id}` with no body and always returns. The blob URL is the raw response body with every quote removed, whatever the status, and contains no quote. |
| Client.DownloadKnowledgeBaseWith | QnaMakerClient.cs:149-155 | The id overload of download sends a GET to that id with no body. It is exactly the route request of download for that id, so it carries the subscription-key header. It always returns, and the blob URL is the response body with every quote removed. |
| Client.DownloadUnquotes | QnaMakerClient.cs:166-170 | A response body that is a quoted, quote-free URL yields exactly that URL, whatever the status. |
| Client.EndpointOf | QnaMakerClient.cs:104-287 | The route table. The method is POST exactly for create and generate-answer. The path is `create` exactly for create. Every other path starts with the addressed knowledge-base id. |
| Client.RouteIsRecognized | QnaMakerClient.cs:104-287 | Reading any route backwards gives its operation kind and target knowledge base. |
| Client.RecognizedIsRoute | QnaMakerClient.cs:104-287 | An endpoint that reads as a given kind and target is the route of every operation of that kind and target. |
| Client.EndpointsDistinguishOperations | QnaMakerClient.cs:104-287 | Two operations share method and path iff they are of the same kind on the same knowledge base. |
| Client.GenerateAnswerPathText | QnaMakerClient.cs:210 | The generate-answer path renders as the id's text followed by `/generateAnswer`. |
| Client.Payload | QnaMakerClient.cs:104-287 | An operation hands the dispatcher a payload iff it is create, generate-answer or update. |
| Client.RequestFor | QnaMakerClient.cs:296-305 | The request of an operation has the route's method and path and exactly the subscription-key header. It has content iff the operation is create or generate-answer, and that content is the serialized request. |
| Client.Dispatch | QnaMakerClient.cs:296-311 | A structured operation sends exactly its request, and its outcome is the classification of the transport's response. |
| Client.GenerateAnswerBodyExample | Requests/GenerateAnswerRequest.cs:14-27 | Question "hi" with top 3 is sent as the body `{question: "hi", top: 3}`, with no id member. |
| Client.ServiceErrorReachesCaller | QnaMakerClient.cs:330-345 | For every structured operation (all but download), a failure response whose body is `{error: {code, message}}` throws a service error carrying that status and that error. |
| Http.NewRequest | QnaMakerClient.cs:296-305 | The outgoing request has a body iff a payload is given and the method is POST. That body is the payload as JSON content. The subscription-key header is always attached. |
| Http.GetResponseContent | QnaMakerClient.cs:330-345 | After HTML decoding: a success status returns iff the body parses and binds, and returns the bound value. Only failure statuses produce a service error, and it carries the response's status. A failure with an empty decoded body throws the status with a null error. A body that does not parse throws the reader's exception; a success body that parses but does not bind throws the serializer's. A failure body that parses: an object or array in the error's `code` or `message` throws the reader's exception; otherwise an error envelope throws the status with the envelope's error, a body that binds to null (JSON null or the JSON empty string) throws a null dereference, and any other shape throws the serializer's exception. No argument error arises here. |
| Http.ServiceErrorSurfaces | QnaMakerClient.cs:339-343 | A failure whose decoded body parses and binds to an error envelope, in any member order, throws the envelope's error with the status. |
| Http.UnreadableFailureBody | QnaMakerClient.cs:339-341 | A failure whose non-empty decoded body does not parse throws the reader's exception, not a service error. |
| Http.NullFailureBody | QnaMakerClient.cs:339-342 | A failure whose non-empty decoded body reads as null (the literal `null`, whitespace only, or the JSON empty string) throws a null dereference. |
| Http.EmptyStringErrorIsNull | QnaMakerClient.cs:341-342 | A failure body `{"error": ""}` throws the status with a null error, as the library reads the empty string as a null error object. |
| Http.StructuredErrorTextUnreadable | QnaMakerClient.cs:341 | A failure body whose error holds an object or array in `code` or `message` throws the reader's exception, not a service error. |
| Http.EmptyFailureCarriesStatusOnly | QnaMakerClient.cs:344 | A failure with an empty body throws the status and a null error, given that decoding leaves the empty string empty. |
| Http.Send | QnaMakerClient.cs:296-311 | The structured send puts exactly one request on the wire. The request carries the key header. Its outcome is the classification of the response and is never an argument error. |
| Http.SendRaw | QnaMakerClient.cs:313-328 | The raw send puts exactly one request on the wire and returns the response body unchanged, whatever the status. |
| Quotes.StripQuotes | QnaMakerClient.cs:169 | The stripped text has no quote and is no longer than the input. |
| Quotes.StripKeepsOtherCharacters | QnaMakerClient.cs:169 | Every character other than a quote occurs in the result as often as in the input. |
| Quotes.StripKeepsOrder | QnaMakerClient.cs:169 | The result is a subsequence of the input: the survivors keep their order. |
| Quotes.StripLength | QnaMakerClient.cs:169 | The result's length is the input's length less its number of quotes. |
| Quotes.StripQuoteFree | QnaMakerClient.cs:169 | Text without quotes is returned unchanged. |
| Quotes.StripIdempotent | QnaMakerClient.cs:169 | Stripping twice equals stripping once. |
| Quotes.StripConcat | QnaMakerClient.cs:169 | Stripping a concatenation is concatenating the stripped parts. |
| Quotes.UnquoteJsonString | QnaMakerClient.cs:169 | A quote-free text wrapped in quotes strips back to itself. |
| Requests.NewCreateKnowledgeBaseRequest | QnaMaker/Requests/CreateKnowledgeBaseRequest.cs:24-39 | A fresh create request has a null name and empty, non-null pair and URL lists. |
| Requests.QnaPairJson | QnaMaker/Requests/CreateKnowledgeBaseRequest.cs:6-13 | A pair serializes with exactly the members `question` and `answer`. |
| Requests.QnaPairRoundTrip | QnaMaker/Requests/CreateKnowledgeBaseRequest.cs:6-13 | Reading a serialized pair back gives the pair. |
| Requests.CreateBody | QnaMaker/Requests/CreateKnowledgeBaseRequest.cs:23-39 | The create body has exactly the members `name`, `qnaPairs`, `urls`, in that order. |
| Requests.CreateRoundTrip | QnaMaker/Requests/CreateKnowledgeBaseRequest.cs:18-40 | Reading the create body back gives the request, null members included. |
| Requests.EmptyObjectIsFreshCreate | QnaMaker/Requests/CreateKnowledgeBaseRequest.cs:31-39 | An empty JSON object reads back as a fresh create request, with its empty-list defaults. |
| Requests.NewUpdateActions | Requests/UpdateKnowledgeBaseRequest.cs:7-14 | A fresh UpdateActions has empty, non-null pair and URL lists. |
| Requests.NewUpdateKnowledgeBaseRequest | Requests/UpdateKnowledgeBaseRequest.cs:19-38 | A fresh update request has add and delete both equal to a fresh UpdateActions. |
| Requests.UpdateActionsJson | Requests/UpdateKnowledgeBaseRequest.cs:7-14 | Add and delete actions share one shape, exactly `qnaPairs` and `urls`; a null action is JSON null. |
| Requests.UpdateActionsRoundTrip | Requests/UpdateKnowledgeBaseRequest.cs:7-14 | Reading serialized actions back gives the actions. |
| Requests.UpdateBody | Requests/UpdateKnowledgeBaseRequest.cs:24-37 | The update body has exactly the members `add` and `delete`. |
| Requests.BindUpdate | Requests/UpdateKnowledgeBaseRequest.cs:24-25 | Whatever a JSON body holds, the id read back from it is the unset default. |
| Requests.UpdateRoundTrip | Requests/UpdateKnowledgeBaseRequest.cs:19-38 | The update body reads back as the request with its id unset, and two requests differing only in id have the same body. |
| Requests.NewGenerateAnswerRequest | Requests/GenerateAnswerRequest.cs:14-27 | A fresh generate-answer request has an unset id, a null question and `top` of 1. |
| Requests.GenerateAnswerBody | Requests/GenerateAnswerRequest.cs:14-27 | The generate-answer body has exactly the members `question` and `top`. |
| Requests.BindGenerateAnswer | Requests/GenerateAnswerRequest.cs:14-15 | Whatever a JSON body holds, the id read back from it is the unset default. |
| Requests.GenerateAnswerRoundTrip | Requests/GenerateAnswerRequest.cs:20-27 | Reading the body back gives the original question and top, and the id does not influence the body. |
| Requests.MissingTopDefaultsToOne | Requests/GenerateAnswerRequest.cs:24-27 | A body without `top` reads back with `top` of 1. |
| Errors.NewQnaMakerException | QnaMaker/Exceptions/QnaMakerException.cs:24-26 | The parameterless exception has the zero status and a null error. |
| Errors.QnaMakerExceptionWithStatus | QnaMaker/Exceptions/QnaMakerException.cs:28-31 | The status-only exception records the status and a null error. |
| Errors.QnaMakerExceptionWithError | QnaMaker/Exceptions/QnaMakerException.cs:33-37 | The two-argument exception records status and error unchanged. |
| Errors.StatusOnlyIsNullError | QnaMaker/Exceptions/QnaMakerException.cs:28-37 | The status-only exception equals the two-argument one with a null error. |
| Errors.ErrorBodyJson | QnaMaker/Exceptions/QnaMakerException.cs:16-20 | The error envelope has exactly the member `error`. |
| Errors.ErrorJson | QnaMaker/Exceptions/QnaMakerException.cs:7-14 | An error serializes with exactly `code` and `message`; a null error is JSON null. |
| Errors.BindErrorBody | QnaMaker/Exceptions/QnaMakerException.cs:16-20 | JSON null and the JSON empty string read as a null envelope, and an object without `error` reads as an envelope with a null error. A body the reader cannot read (an object or array in `code` or `message`) never binds. |
| Errors.ErrorBodyRoundTrip | QnaMaker/Exceptions/QnaMakerException.cs:7-20 | Parsing `{error: {code, message}}` gives back the inner error unchanged. |
| Errors.ErrorMembersFoundByName | QnaMaker/Exceptions/QnaMakerException.cs:7-20 | An error object with `message` before `code` and an unknown member between them reads back as the same error. |
| Errors.ExceptionPropertiesJson | QnaMaker/Exceptions/QnaMakerException.cs:39-42 | The exception's own properties serialize as exactly the member `Error`; the status is ignored. |
| Errors.StatusNotSerialized | QnaMaker/Exceptions/QnaMakerException.cs:39-40 | Exceptions that differ only in status serialize alike. |

## Left out

- Transport: `HttpClient` construction, `SendAsync`, `async`/`await`, `using` disposal and `Dispose`
  are resource handling. The transport is a total function from request to response, so hangs and
  transport exceptions are not modelled.
- `WebUtility.HtmlDecode` and the JSON text parser are uninterpreted parameters. Only the binding of
  parsed JSON values to records is modelled. Within that binding, member names are matched exactly:
  the JSON library's case-insensitive matching is not modelled. Its coercion of numbers or booleans
  into string members is also left out; such a value counts as a mismatch. An object or array in a
  string member is a reader error in the library; the model says so for the error body, which is
  the one the client itself reads, and treats it as a mismatch in the request binders.
- JSON numbers are integers only: `Json` has no fractional numbers. A success body carrying a float,
  such as the `score` of each generate-answer result, is therefore outside what `bind` can receive;
  only the classification around it is modelled.
- The base address (QnaMakerClient.cs:16, 28) appears only in the text above: requests carry their
  relative path, and resolving it against the base address is left to the HTTP library.
- A null request object is not modelled: every request is a value. In the source, passing null to an
  object overload fails with a null dereference before anything is sent (QnaMakerClient.cs:91, 134,
  166, 210, 242, 287).
- The header check of the HTTP library is not modelled. A subscription key it refuses, one that
  contains a line break for example, makes the source throw when it adds the header (QnaMakerClient.cs:305, 322).
  The model attaches any key.
- Errors.BindErrorBody: does not model how repeated keys merge. The model takes the last value of a
  repeated key. The JSON library does the same for scalar members, but it merges a repeated object
  or array member into the value read first. For example, the failure body
  `{"error":{"code":"A","message":"m"},"error":{"code":"B"}}` gives the error {B, m} in the source,
  but {B, null} here and in `Http.GetResponseContent`. The request binders share this simplification.
- Null elements inside lists (a null pair, a null URL) are not modelled: list elements are non-null values.
- Guid formatting: an id is an opaque 128-bit number, and path rendering takes the formatter as a parameter.
- The response types (`CreateKnowledgeBaseResponse`, `GenerateAnswerResponse` with its float
  `Score`, and the delete, publish and update responses) are data without behaviour. They are
  bound by the caller-supplied `bind`, except that a float such as `Score` has no `Json` form (see above). The descending order of answers is the service's promise.
  The client never checks it.
- Serialization of the exception by the base `Exception` class (message, stack trace and so on) is
  not modelled. `Errors.ExceptionPropertiesJson` covers the class's own two properties.
- The settable `SubscriptionKey` property is modelled as the client's immutable key.
- Behaviour of the remote service (extraction results, the 30-minute validity of the blob URL) is
  outside the client.

=== FILE: client.dfy ===
/**
 * The client's operations. Each one is a thin adapter: an optional local
 * check of its arguments, then one request whose method and relative path
 * are fixed by the operation, then the response classification of the
 * dispatcher. A local check that fails throws before anything is sent.
 */
module Client {
  import opened Nullable
  import opened Json
  import opened Requests
  import opened Errors
  import opened Quotes
  import Http

  const MaxQnaPairs: nat := 1000
  const MaxQnaUrls: nat := 5

  /** The client holds nothing but the caller's subscription key. */
  datatype QnaMakerClient = QnaMakerClient(subscriptionKey: string)

  // ----- local validation -----

  /** `string.IsNullOrEmpty`. */
  predicate IsNullOrEmpty(s: NString)
  {
    s.None? || s.value == ""
  }

  function DigitChar(d: nat): char
    requires d < 10
  {
    "0123456789"[d]
  }

  /** The decimal text of a number, as string interpolation writes it. */
  function Decimal(n: nat): (s: string)
    ensures |s| > 0
  {
    if n < 10 then [DigitChar(n)] else Decimal(n / 10) + [DigitChar(n % 10)]
  }

  const PairsLimitMessage: string := "Max " + Decimal(MaxQnaPairs) + " Q-A pairs per request"
  const UrlsLimitMessage: string := "Max " + Decimal(MaxQnaUrls) + " urls per request"

  lemma LimitMessages()
    ensures PairsLimitMessage == "Max 1000 Q-A pairs per request"
    ensures UrlsLimitMessage == "Max 5 urls per request"
  {
  }

  /** A null list passes a size check. */
  predicate WithinLimit<T>(xs: Option<seq<T>>, limit: nat)
  {
    xs.None? || |xs.value| <= limit
  }

  /** The client's own checks before sending a create: a name, at most 1000 pairs, at most 5 URLs. */
  predicate CreateAcceptable(req: CreateKnowledgeBaseRequest)
  {
    !IsNullOrEmpty(req.name) && WithinLimit(req.qnaPairs, MaxQnaPairs) && WithinLimit(req.urls, MaxQnaUrls)
  }

  /**
   * The checks of the create operation, in the order the source runs them:
   * name, then pairs, then URLs; the first violation decides the error.
   */
  function ValidateCreate(req: CreateKnowledgeBaseRequest): (r: Option<ClientException>)
    ensures r.None? <==> CreateAcceptable(req)
    ensures r.Some? ==> r.value.IsArgumentError()
    ensures IsNullOrEmpty(req.name) ==> r == Some(ArgumentNull("Name"))
    ensures !IsNullOrEmpty(req.name) && !WithinLimit(req.qnaPairs, MaxQnaPairs) ==>
              r == Some(ArgumentOutOfRange("QnaPairs", PairsLimitMessage))
    ensures !IsNullOrEmpty(req.name) && WithinLimit(req.qnaPairs, MaxQnaPairs) && !WithinLimit(req.urls, MaxQnaUrls) ==>
              r == Some(ArgumentOutOfRange("Urls", UrlsLimitMessage))
  {
    if IsNullOrEmpty(req.name) then
      Some(ArgumentNull("Name"))
    else if req.qnaPairs.Some? && |req.qnaPairs.value| > MaxQnaPairs then
      Some(ArgumentOutOfRange("QnaPairs", PairsLimitMessage))
    // the URL check compares with the literal 5, which equals MaxQnaUrls
    else if req.urls.Some? && |req.urls.value| > 5 then
      Some(ArgumentOutOfRange("Urls", UrlsLimitMessage))
    else
      None
  }

  /** Exactly 1000 pairs and exactly 5 URLs pass; one more of either fails. */
  lemma CreateLimitsAreInclusive(name: string, pairs: seq<QnaPair>, urls: seq<string>, p: QnaPair, u: string)
    requires name != "" && |pairs| == 1000 && |urls| == 5
    ensures ValidateCreate(CreateKnowledgeBaseRequest(Some(name), Some(pairs), Some(urls))).None?
    ensures ValidateCreate(CreateKnowledgeBaseRequest(Some(name), Some(pairs + [p]), Some(urls))) ==
            Some(ArgumentOutOfRange("QnaPairs", PairsLimitMessage))
    ensures ValidateCreate(CreateKnowledgeBaseRequest(Some(name), Some(pairs), Some(urls + [u]))) ==
            Some(ArgumentOutOfRange("Urls", UrlsLimitMessage))
  {
  }

  // ----- the route table -----

  datatype Operation =
    | Create(createRequest: CreateKnowledgeBaseRequest)
    | Delete(deleteRequest: DeleteKnowledgeBaseRequest)
    | Download(downloadRequest: DownloadKnowledgeBaseRequest)
    | GenerateAnswer(generateRequest: GenerateAnswerRequest)
    | Publish(publishRequest: PublishKnowledgeBaseRequest)
    | Update(updateRequest: UpdateKnowledgeBaseRequest)

  datatype Kind = CreateKind | DeleteKind | DownloadKind | GenerateAnswerKind | PublishKind | UpdateKind

  function KindOf(op: Operation): Kind
  {
    match op
    case Create(_) => CreateKind
    case Delete(_) => DeleteKind
    case Download(_) => DownloadKind
    case GenerateAnswer(_) => GenerateAnswerKind
    case Publish(_) => PublishKind
    case Update(_) => UpdateKind
  }

  /** The knowledge base an operation addresses; creation addresses none. */
  function TargetOf(op: Operation): Option<Guid>
  {
    match op
    case Create(_) => None
    case Delete(r) => Some(r.knowledgeBaseId)
    case Download(r) => Some(r.knowledgeBaseId)
    case GenerateAnswer(r) => Some(r.knowledgeBaseId)
    case Publish(r) => Some(r.knowledgeBaseId)
    case Update(r) => Some(r.knowledgeBaseId)
  }

  datatype Endpoint = Endpoint(verb: Http.Method, url: Http.RelativeUrl)

  /** The method and relative path of each operation. */
  function EndpointOf(op: Operation): (e: Endpoint)
    ensures e.verb == Http.Post <==> op.Create? || op.GenerateAnswer?
    ensures op.Create? <==> e.url == [Http.Literal("create")]
    ensures TargetOf(op).Some? ==> |e.url| > 0 && e.url[0] == Http.Identity(TargetOf(op).value)
  {
    match op
    case Create(_) => Endpoint(Http.Post, [Http.Literal("create")])
    case Delete(r) => Endpoint(Http.Delete, [Http.Identity(r.knowledgeBaseId)])
    case Download(r) => Endpoint(Http.Get, [Http.Identity(r.knowledgeBaseId)])
    case GenerateAnswer(r) => Endpoint(Http.Post, [Http.Identity(r.knowledgeBaseId), Http.Literal("generateAnswer")])
    case Publish(r) => Endpoint(Http.Put, [Http.Identity(r.knowledgeBaseId)])
    case Update(r) => Endpoint(Http.Patch, [Http.Identity(r.knowledgeBaseId)])
  }

  /** Reads the route table backwards: which operation, on which knowledge base, an endpoint names. */
  function Recognize(e: Endpoint): Option<(Kind, Option<Guid>)>
  {
    var u := e.url;
    if u == [Http.Literal("create")] then
      if e.verb == Http.Post then Some((CreateKind, None)) else None
    else if |u| == 2 && u[0].Identity? && u[1] == Http.Literal("generateAnswer") then
      if e.verb == Http.Post then Some((GenerateAnswerKind, Some(u[0].id))) else None
    else if |u| == 1 && u[0].Identity? then
      var id := Some(u[0].id);
      if e.verb == Http.Delete then Some((DeleteKind, id))
      else if e.verb == Http.Get then Some((DownloadKind, id))
      else if e.verb == Http.Put then Some((PublishKind, id))
      else if e.verb == Http.Patch then Some((UpdateKind, id))
      else None
    else None
  }

  /** Every route in the table names its own operation and knowledge base. */
  lemma RouteIsRecognized(op: Operation)
    ensures Recognize(EndpointOf(op)) == Some((KindOf(op), TargetOf(op)))
  {
  }

  /** An endpoint that is recognized is the route of every operation of that kind and target. */
  lemma RecognizedIsRoute(e: Endpoint, op: Operation)
    requires Recognize(e) == Some((KindOf(op), TargetOf(op)))
    ensures EndpointOf(op) == e
  {
  }

  /** Two operations share an endpoint exactly when they are of one kind on one knowledge base. */
  lemma EndpointsDistinguishOperations(a: Operation, b: Operation)
    ensures EndpointOf(a) == EndpointOf(b) <==> KindOf(a) == KindOf(b) && TargetOf(a) == TargetOf(b)
  {
  }

  /** The generate-answer path as text: the identity, then `/generateAnswer`. */
  lemma GenerateAnswerPathText(r: GenerateAnswerRequest, guidText: Guid -> string)
    ensures Http.RenderUrl(EndpointOf(GenerateAnswer(r)).url, guidText) == guidText(r.knowledgeBaseId) + "/generateAnswer"
  {
  }

  /** The payload each operation hands the dispatcher; only create, generate-answer and update have one. */
  function Payload(op: Operation): (data: Option<Json>)
    ensures data.Some? <==> op.Create? || op.GenerateAnswer? || op.Update?
  {
    match op
    case Create(r) => Some(CreateBody(r))
    case GenerateAnswer(r) => Some(GenerateAnswerBody(r))
    case Update(r) => Some(UpdateBody(r))
    case _ => None
  }

  /** The request an operation puts on the wire once its local checks have passed. */
  function RequestFor(client: QnaMakerClient, op: Operation): (request: Http.HttpRequest)
    ensures request.verb == EndpointOf(op).verb && request.url == EndpointOf(op).url
    ensures request.headers == [(Http.SubscriptionKeyHeader, client.subscriptionKey)]
    ensures request.content.Some? <==> op.Create? || op.GenerateAnswer?
    ensures op.Create? ==> request.content == Some(Http.JsonContent(CreateBody(op.createRequest), Http.JsonMediaType))
    ensures op.GenerateAnswer? ==>
              request.content == Some(Http.JsonContent(GenerateAnswerBody(op.generateRequest), Http.JsonMediaType))
  {
    Http.NewRequest(EndpointOf(op).verb, EndpointOf(op).url, Payload(op), client.subscriptionKey)
  }

  /** The update payload exists but is dropped, because the method is PATCH. */
  lemma UpdatePayloadDropped(client: QnaMakerClient, r: UpdateKnowledgeBaseRequest)
    ensures Payload(Update(r)).Some?
    ensures RequestFor(client, Update(r)).content.None?
  {
  }

  /** Sends an operation's request through the structured dispatcher. */
  function Dispatch<T>(client: QnaMakerClient, op: Operation, wire: Http.Wire, bind: Json -> Bound<T>): (c: Http.Call<T>)
    ensures c.sent == Some(RequestFor(client, op))
    ensures c.outcome == Http.GetResponseContent(wire.transport(RequestFor(client, op)), wire, bind)
  {
    Http.Send(client.subscriptionKey, EndpointOf(op).verb, EndpointOf(op).url, Payload(op), wire, bind)
  }

  // ----- the operations, request-object overloads -----

  /** Creates a knowledge base; the local checks run before anything is sent. */
  function CreateKnowledgeBase<T>(client: QnaMakerClient, req: CreateKnowledgeBaseRequest, wire: Http.Wire, bind: Json -> Bound<T>): (c: Http.Call<T>)
    ensures c.sent.Some? <==> CreateAcceptable(req)
    ensures c.sent.Some? ==> c.sent == Some(RequestFor(client, Create(req)))
    ensures !CreateAcceptable(req) ==> c.outcome.Threw? && c.outcome.exception.IsArgumentError()
    ensures c.sent.Some? ==> c.sent.value.verb == Http.Post && c.sent.value.url == [Http.Literal("create")]
    ensures c.sent.Some? ==> c.sent.value.content == Some(Http.JsonContent(CreateBody(req), Http.JsonMediaType))
    ensures c.outcome.Threw? && c.outcome.exception.IsArgumentError() ==> c.sent.None?
    ensures ValidateCreate(req).Some? ==> c == Http.Rejected(ValidateCreate(req).value)
    ensures c.sent.Some? ==> c.outcome == Http.GetResponseContent(wire.transport(c.sent.value), wire, bind)
  {
    match ValidateCreate(req)
    case Some(e) => Http.Rejected(e)
    case None => Dispatch(client, Create(req), wire, bind)
  }

  /** A fresh create request has no name, so it is refused without a request. */
  lemma FreshCreateRequestRefused<T>(client: QnaMakerClient, wire: Http.Wire, bind: Json -> Bound<T>)
    ensures CreateKnowledgeBase(client, NewCreateKnowledgeBaseRequest(), wire, bind) == Http.Rejected(ArgumentNull("Name"))
  {
  }

  function DeleteKnowledgeBase<T>(client: QnaMakerClient, req: DeleteKnowledgeBaseRequest, wire: Http.Wire, bind: Json -> Bound<T>): (c: Http.Call<T>)
    ensures c.sent == Some(RequestFor(client, Delete(req)))
    ensures c.sent.value.verb == Http.Delete && c.sent.value.url == [Http.Identity(req.knowledgeBaseId)]
    ensures c.sent.value.content.None?
    ensures c.outcome == Http.GetResponseContent(wire.transport(c.sent.value), wire, bind)
  {
    Dispatch(client, Delete(req), wire, bind)
  }

  /**
   * Downloads a knowledge base. The raw body is read whatever the status,
   * without HTML decoding, and every quote is removed from it: this call
   * never throws a service error.
   */
  function DownloadKnowledgeBase(client: QnaMakerClient, req: DownloadKnowledgeBaseRequest, wire: Http.Wire): (c: Http.Call<DownloadKnowledgeBaseResponse>)
    ensures c.sent == Some(RequestFor(client, Download(req)))
    ensures c.sent.value.verb == Http.Get && c.sent.value.content.None?
    ensures c.outcome.Returned?
    ensures Quote !in c.outcome.value.blobUrl
    ensures c.outcome.value.blobUrl == StripQuotes(wire.transport(c.sent.value).body)
  {
    var op := Download(req);
    var raw := Http.SendRaw(client.subscriptionKey, EndpointOf(op).verb, EndpointOf(op).url, None, wire);
    Http.Call(raw.sent, Returned(DownloadKnowledgeBaseResponse(StripQuotes(raw.outcome.value))))
  }

  /** The blob URL of a download, not fetched by the client. */
  datatype DownloadKnowledgeBaseResponse = DownloadKnowledgeBaseResponse(blobUrl: string)

  /** A quoted URL comes back unquoted, and a failure status makes no difference. */
  lemma DownloadUnquotes(client: QnaMakerClient, req: DownloadKnowledgeBaseRequest, wire: Http.Wire, url: string)
    requires Quote !in url
    requires wire.transport(RequestFor(client, Download(req))).body == [Quote] + url + [Quote]
    ensures DownloadKnowledgeBase(client, req, wire).outcome == Returned(DownloadKnowledgeBaseResponse(url))
  {
    UnquoteJsonString(url);
  }

  /** Generates answers; the request object is sent as it is, without a check of the question. */
  function GenerateAnswerKnowledgeBase<T>(client: QnaMakerClient, req: GenerateAnswerRequest, wire: Http.Wire, bind: Json -> Bound<T>): (c: Http.Call<T>)
    ensures c.sent == Some(RequestFor(client, GenerateAnswer(req)))
    ensures c.sent.value.verb == Http.Post
    ensures c.sent.value.url == [Http.Identity(req.knowledgeBaseId), Http.Literal("generateAnswer")]
    ensures c.sent.value.content == Some(Http.JsonContent(GenerateAnswerBody(req), Http.JsonMediaType))
    ensures c.outcome == Http.GetResponseContent(wire.transport(c.sent.value), wire, bind)
  {
    Dispatch(client, GenerateAnswer(req), wire, bind)
  }

  function PublishKnowledgeBase<T>(client: QnaMakerClient, req: PublishKnowledgeBaseRequest, wire: Http.Wire, bind: Json -> Bound<T>): (c: Http.Call<T>)
    ensures c.sent == Some(RequestFor(client, Publish(req)))
    ensures c.sent.value.verb == Http.Put && c.sent.value.url == [Http.Identity(req.knowledgeBaseId)]
    ensures c.sent.value.content.None?
    ensures c.outcome == Http.GetResponseContent(wire.transport(c.sent.value), wire, bind)
  {
    Dispatch(client, Publish(req), wire, bind)
  }

  /** Updates a knowledge base with PATCH; the update payload does not reach the request. */
  function UpdateKnowledgeBase<T>(client: QnaMakerClient, req: UpdateKnowledgeBaseRequest, wire: Http.Wire, bind: Json -> Bound<T>): (c: Http.Call<T>)
    ensures c.sent == Some(RequestFor(client, Update(req)))
    ensures c.sent.value.verb == Http.Patch && c.sent.value.url == [Http.Identity(req.knowledgeBaseId)]
    ensures c.sent.value.content.None?
    ensures c.outcome == Http.GetResponseContent(wire.transport(c.sent.value), wire, bind)
  {
    Dispatch(client, Update(req), wire, bind)
  }

  // ----- the parameter overloads -----

  /** The create request built from loose arguments: a null list becomes an empty one. */
  function CreateRequestFrom(name: NString, qnapairs: Option<seq<QnaPair>>, urls: Option<seq<string>>): (r: CreateKnowledgeBaseRequest)
    ensures r.name == name
    ensures r.qnaPairs.Some? && r.urls.Some?
    ensures qnapairs.Some? ==> r.qnaPairs == qnapairs
    ensures urls.Some? ==> r.urls == urls
    ensures qnapairs.None? ==> r.qnaPairs == Some([])
    ensures urls.None? ==> r.urls == Some([])
  {
    CreateKnowledgeBaseRequest(name, Some(qnapairs.Coalesce([])), Some(urls.Coalesce([])))
  }

  /**
   * Creates a knowledge base from loose arguments. Null lists are sent as
   * empty ones; the name and the lists are otherwise forwarded unchanged.
   */
  function CreateKnowledgeBaseWith<T>(client: QnaMakerClient, name: NString, qnapairs: Option<seq<QnaPair>> := None, urls: Option<seq<string>> := None, wire: Http.Wire, bind: Json -> Bound<T>): (c: Http.Call<T>)
    ensures c.sent.Some? <==> !IsNullOrEmpty(name) && WithinLimit(qnapairs, MaxQnaPairs) && WithinLimit(urls, MaxQnaUrls)
    ensures IsNullOrEmpty(name) ==> c == Http.Rejected(ArgumentNull("Name"))
    ensures c.sent.Some? ==> c.sent == Some(RequestFor(client, Create(CreateRequestFrom(name, qnapairs, urls))))
    ensures c.sent.Some? ==> c.sent.value.verb == Http.Post && c.sent.value.url == [Http.Literal("create")]
    ensures var req := CreateRequestFrom(name, qnapairs, urls);
            ValidateCreate(req).Some? ==> c == Http.Rejected(ValidateCreate(req).value)
    ensures c.sent.Some? ==> c.outcome == Http.GetResponseContent(wire.transport(c.sent.value), wire, bind)
    ensures c.sent.Some? ==>
              c.sent.value.content.Some? &&
              BindCreate(c.sent.value.content.value.body) ==
              Bound(Some(CreateKnowledgeBaseRequest(name, Some(qnapairs.Coalesce([])), Some(urls.Coalesce([])))))
  {
    var req := CreateRequestFrom(name, qnapairs, urls);
    CreateRoundTrip(req);
    CreateKnowledgeBase(client, req, wire, bind)
  }

  /** Leaving out both lists creates the knowledge base from the name alone, with empty lists. */
  lemma CreateListsDefaultToEmpty<T>(client: QnaMakerClient, name: NString, wire: Http.Wire, bind: Json -> Bound<T>)
    ensures CreateKnowledgeBaseWith(client, name, wire := wire, bind := bind) ==
            CreateKnowledgeBase(client, CreateKnowledgeBaseRequest(name, Some([]), Some([])), wire, bind)
  {
  }

  /** Generates answers for a question; a null or empty question is refused before sending. */
  function GenerateAnswerWith<T>(client: QnaMakerClient, id: Guid, question: NString, wire: Http.Wire, bind: Json -> Bound<T>, top: Int32 := DefaultTop): (c: Http.Call<T>)
    ensures c.sent.Some? <==> !IsNullOrEmpty(question)
    ensures IsNullOrEmpty(question) ==> c.outcome == Threw(ArgumentNull("question"))
    ensures !IsNullOrEmpty(question) ==> c == GenerateAnswerKnowledgeBase(client, GenerateAnswerRequest(id, question, top), wire, bind)
  {
    if IsNullOrEmpty(question) then Http.Rejected(ArgumentNull("question"))
    else GenerateAnswerKnowledgeBase(client, GenerateAnswerRequest(id, question, top), wire, bind)
  }

  /** Leaving out `top` asks for one answer: the body sent carries `top` of 1. */
  lemma GenerateAnswerTopDefaultsToOne<T>(client: QnaMakerClient, id: Guid, question: string, wire: Http.Wire, bind: Json -> Bound<T>)
    requires question != ""
    ensures var c := GenerateAnswerWith(client, id, Some(question), wire, bind);
            c.sent.Some? && c.sent.value.content.value.body == JObject([("question", JString(question)), ("top", JInt(1))])
  {
  }

  /** The update request built from loose arguments: a null action becomes an empty `UpdateActions`. */
  function UpdateRequestFrom(id: Guid, add: Option<UpdateActions>, delete: Option<UpdateActions>): (r: UpdateKnowledgeBaseRequest)
    ensures r.knowledgeBaseId == id
    ensures r.add.Some? && r.delete.Some?
    ensures add.Some? ==> r.add == add
    ensures delete.Some? ==> r.delete == delete
    ensures add.None? ==> r.add == Some(NewUpdateActions())
    ensures delete.None? ==> r.delete == Some(NewUpdateActions())
  {
    UpdateKnowledgeBaseRequest(id, Some(add.Coalesce(NewUpdateActions())), Some(delete.Coalesce(NewUpdateActions())))
  }

  /**
   * Updates a knowledge base from loose arguments. Null actions become empty
   * ones, but since the payload is dropped the request on the wire is the
   * same whatever actions are given.
   */
  function UpdateKnowledgeBaseWith<T>(client: QnaMakerClient, id: Guid, add: Option<UpdateActions> := None, delete: Option<UpdateActions> := None, wire: Http.Wire, bind: Json -> Bound<T>): (c: Http.Call<T>)
    ensures c.sent == Some(RequestFor(client, Update(UpdateKnowledgeBaseRequest(id, add, delete))))
    ensures c.sent.value.verb == Http.Patch && c.sent.value.url == [Http.Identity(id)]
    ensures c.outcome == Http.GetResponseContent(wire.transport(c.sent.value), wire, bind)
  {
    UpdateKnowledgeBase(client, UpdateRequestFrom(id, add, delete), wire, bind)
  }

  function DeleteKnowledgeBaseWith<T>(client: QnaMakerClient, id: Guid, wire: Http.Wire, bind: Json -> Bound<T>): (c: Http.Call<T>)
    ensures c.sent == Some(RequestFor(client, Delete(DeleteKnowledgeBaseRequest(id))))
    ensures c.sent.value.verb == Http.Delete && c.sent.value.url == [Http.Identity(id)]
    ensures c.sent.value.content.None?
    ensures c.outcome == Http.GetResponseContent(wire.transport(c.sent.value), wire, bind)
  {
    DeleteKnowledgeBase(client, DeleteKnowledgeBaseRequest(id), wire, bind)
  }

  function DownloadKnowledgeBaseWith(client: QnaMakerClient, id: Guid, wire: Http.Wire): (c: Http.Call<DownloadKnowledgeBaseResponse>)
    ensures c.sent == Some(RequestFor(client, Download(DownloadKnowledgeBaseRequest(id))))
    ensures c.sent.value.verb == Http.Get && c.sent.value.url == [Http.Identity(id)]
    ensures c.sent.value.content.None?
    ensures c.outcome.Returned? && Quote !in c.outcome.value.blobUrl
    ensures c.outcome.value.blobUrl == StripQuotes(wire.transport(c.sent.value).body)
  {
    DownloadKnowledgeBase(client, DownloadKnowledgeBaseRequest(id), wire)
  }

  function PublishKnowledgeBaseWith<T>(client: QnaMakerClient, id: Guid, wire: Http.Wire, bind: Json -> Bound<T>): (c: Http.Call<T>)
    ensures c.sent == Some(RequestFor(client, Publish(PublishKnowledgeBaseRequest(id))))
    ensures c.sent.value.verb == Http.Put && c.sent.value.url == [Http.Identity(id)]
    ensures c.sent.value.content.None?
    ensures c.outcome == Http.GetResponseContent(wire.transport(c.sent.value), wire, bind)
  {
    PublishKnowledgeBase(client, PublishKnowledgeBaseRequest(id), wire, bind)
  }

  // ----- end to end -----

  /** A generate-answer body holds the question and `top`, never the identity. */
  lemma GenerateAnswerBodyExample(client: QnaMakerClient, id: Guid, wire: Http.Wire)
    ensures var c := GenerateAnswerWith(client, id, Some("hi"), wire, BindString, 3);
            c.sent.value.content.value.body == JObject([("question", JString("hi")), ("top", JInt(3))])
  {
  }

  /** A service error reaches the caller of every structured operation (all but download) with its status, code and message. */
  lemma ServiceErrorReachesCaller<T>(client: QnaMakerClient, op: Operation, wire: Http.Wire, bind: Json -> Bound<T>, error: QnaMakerError)
    requires !op.Download?
    requires var response := wire.transport(RequestFor(client, op));
             && !Http.IsSuccessStatusCode(response.statusCode)
             && wire.htmlDecode(response.body) != ""
             && wire.parse(wire.htmlDecode(response.body)) == Some(ErrorBodyJson(QnaMakerErrorJson(Some(error))))
    ensures Dispatch(client, op, wire, bind).outcome ==
            Threw(Service(QnaMakerException(wire.transport(RequestFor(client, op)).statusCode, Some(error))))
  {
  }
}

=== FILE: errors.dfy ===
/**
 * The service's error body `{"error": {"code": ..., "message": ...}}`, the
 * exception that carries it together with the HTTP status, and the taxonomy
 * of everything a client call can throw.
 */
module Errors {
  import opened Nullable
  import opened Json

  /** The numeric value of a `System.Net.HttpStatusCode`. */
  type HttpStatusCode = int

  datatype QnaMakerError = QnaMakerError(code: NString, message: NString)

  /** The envelope the service wraps its error in. */
  datatype QnaMakerErrorJson = QnaMakerErrorJson(error: Option<QnaMakerError>)

  datatype QnaMakerException = QnaMakerException(httpStatusCode: HttpStatusCode, error: Option<QnaMakerError>)

  /** The parameterless constructor: the status keeps its zero default and there is no error. */
  function NewQnaMakerException(): (e: QnaMakerException)
    ensures e.httpStatusCode == 0 && e.error.None?
  {
    QnaMakerException(0, None)
  }

  /** The status-only constructor: records the status, leaves the error null. */
  function QnaMakerExceptionWithStatus(code: HttpStatusCode): (e: QnaMakerException)
    ensures e.httpStatusCode == code && e.error.None?
  {
    QnaMakerException(code, None)
  }

  /** The status-and-error constructor: records both as given. */
  function QnaMakerExceptionWithError(code: HttpStatusCode, error: Option<QnaMakerError>): (e: QnaMakerException)
    ensures e.httpStatusCode == code && e.error == error
  {
    QnaMakerException(code, error)
  }

  /** The status-only constructor is the two-argument one with a null error. */
  lemma StatusOnlyIsNullError(code: HttpStatusCode)
    ensures QnaMakerExceptionWithStatus(code) == QnaMakerExceptionWithError(code, None)
  {
  }

  // ----- JSON shape of the error body -----

  function ErrorJson(e: Option<QnaMakerError>): (j: Json)
    ensures e.None? <==> j.JNull?
    ensures e.Some? ==> j.JObject? && Keys(j.members) == ["code", "message"]
  {
    match e
    case None => JNull
    case Some(x) => JObject([("code", StringJson(x.code)), ("message", StringJson(x.message))])
  }

  /**
   * Binds the error object. Like JSON null, the empty string reads as a null
   * error, since the library reads "" as null for a class-typed value.
   */
  function BindError(j: Json): (r: Bound<Option<QnaMakerError>>)
  {
    match j
    case JNull => Bound(None)
    case JString(t) => if t == "" then Bound(None) else Mismatch
    case JObject(ms) =>
      var code := BindMember(ms, "code", BindString, None);
      var message := BindMember(ms, "message", BindString, None);
      if code.Bound? && message.Bound? then Bound(Some(QnaMakerError(code.value, message.value))) else Mismatch
    case _ => Mismatch
  }

  /** The whole error body: one member, `error`. */
  function ErrorBodyJson(body: QnaMakerErrorJson): (j: Json)
    ensures j.JObject? && Keys(j.members) == ["error"]
  {
    JObject([("error", ErrorJson(body.error))])
  }

  /** How the client reads an error body: JSON null and the JSON empty string bind to a null envelope. */
  function BindErrorBody(j: Json): (r: Bound<Option<QnaMakerErrorJson>>)
    ensures j.JNull? || j == JString("") ==> r == Bound(None)
    ensures j.JObject? && (forall i :: 0 <= i < |j.members| ==> j.members[i].0 != "error") ==>
              r == Bound(Some(QnaMakerErrorJson(None)))
    ensures UnreadableErrorBody(j) ==> r.Mismatch?
  {
    match j
    case JNull => Bound(None)
    case JString(t) => if t == "" then Bound(None) else Mismatch
    case JObject(ms) =>
      (match BindMember(ms, "error", BindError, None)
       case Bound(e) => Bound(Some(QnaMakerErrorJson(e)))
       case Mismatch => Mismatch)
    case _ => Mismatch
  }

  /** A JSON object or array, which the reader cannot read as a string. */
  predicate Structured(j: Json)
  {
    j.JObject? || j.JArray?
  }

  /**
   * An error body whose error object holds an object or array in `code` or
   * `message`: the JSON reader fails on reading that member as a string, before
   * any binding takes place.
   */
  predicate UnreadableErrorBody(j: Json)
  {
    && j.JObject?
    && var e := Lookup(j.members, "error");
    && e.Some? && e.value.JObject?
    && var code := Lookup(e.value.members, "code");
    && var message := Lookup(e.value.members, "message");
    && ((code.Some? && Structured(code.value)) || (message.Some? && Structured(message.value)))
  }

  /** Parsing `{error: {code, message}}` yields the inner error unchanged. */
  lemma ErrorBodyRoundTrip(body: QnaMakerErrorJson)
    ensures BindErrorBody(ErrorBodyJson(body)) == Bound(Some(body))
  {
  }

  /** Members are found by name: order and unknown members of the error object do not matter. */
  lemma ErrorMembersFoundByName(code: string, message: string, extraKey: string, extra: Json)
    requires extraKey != "code" && extraKey != "message"
    ensures BindErrorBody(JObject([("error", JObject([("message", JString(message)), (extraKey, extra), ("code", JString(code))]))])) ==
            Bound(Some(QnaMakerErrorJson(Some(QnaMakerError(Some(code), Some(message))))))
  {
    var ms := [("message", JString(message)), (extraKey, extra), ("code", JString(code))];
    assert Lookup(ms, "code") == Some(JString(code));
    assert ms[..2] == [("message", JString(message)), (extraKey, extra)];
    assert ms[..2][..1] == [("message", JString(message))];
    assert Lookup(ms[..2][..1], "message") == Some(JString(message));
    assert Lookup(ms[..2], "message") == Some(JString(message));
    assert Lookup(ms, "message") == Some(JString(message));
  }

  /**
   * The members the exception's own properties contribute when it is
   * serialized: `Error` is written, the status code is marked ignored.
   */
  function ExceptionPropertiesJson(e: QnaMakerException): (ms: seq<(string, Json)>)
    ensures Keys(ms) == ["Error"]
    ensures Lookup(ms, "Error") == Some(ErrorJson(e.error))
  {
    [("Error", ErrorJson(e.error))]
  }

  /** Two exceptions that differ only in their status serialize alike. */
  lemma StatusNotSerialized(e: QnaMakerException, code: HttpStatusCode)
    ensures ExceptionPropertiesJson(e.(httpStatusCode := code)) == ExceptionPropertiesJson(e)
  {
  }

  // ----- everything a call can throw -----

  datatype ClientException =
    | ArgumentNull(paramName: string)
    | ArgumentOutOfRange(paramName: string, message: string)
      /** The service answered with a failure status. */
    | Service(exception: QnaMakerException)
      /** The body is not JSON text. */
    | JsonReader
      /** The body is JSON of a shape the expected type cannot take. */
    | JsonSerialization
      /** The failure body read as null (the literal `null`, or whitespace only) and was dereferenced for its `error`. */
    | NullReference
  {
    /** A local validation error, raised before anything is sent. */
    predicate IsArgumentError() {
      ArgumentNull? || ArgumentOutOfRange?
    }
  }

  /** What a call gives its caller: a value or a thrown exception. */
  datatype Outcome<+T> = Returned(value: T) | Threw(exception: ClientException)
}

=== FILE: http.dfy ===
/**
 * The request dispatcher: how one call becomes one HTTP request, and how the
 * response becomes a value or an exception. The transport, the HTML-entity
 * decoder applied to response bodies and the JSON text parser are outside the
 * model; a `Wire` supplies them as plain functions.
 */
module Http {
  import opened Nullable
  import opened Json
  import opened Requests
  import opened Errors

  /** The header that carries the caller's subscription key. */
  const SubscriptionKeyHeader: string := "Ocp-Apim-Subscription-Key"

  const JsonMediaType: string := "application/json"

  datatype Method = Get | Post | Put | Delete | Patch

  /** A path segment: fixed text, or a knowledge-base identity rendered by the caller's formatter. */
  datatype Segment = Literal(text: string) | Identity(id: Guid)

  type RelativeUrl = seq<Segment>

  function SegmentText(s: Segment, guidText: Guid -> string): string
  {
    match s
    case Literal(t) => t
    case Identity(id) => guidText(id)
  }

  /** The relative path as text: segments joined by `/`. */
  function RenderUrl(url: RelativeUrl, guidText: Guid -> string): (s: string)
    ensures |url| == 1 ==> s == SegmentText(url[0], guidText)
    ensures |url| > 1 ==> s == SegmentText(url[0], guidText) + "/" + RenderUrl(url[1..], guidText)
  {
    if url == [] then ""
    else if |url| == 1 then SegmentText(url[0], guidText)
    else SegmentText(url[0], guidText) + "/" + RenderUrl(url[1..], guidText)
  }

  /** A JSON body, written as UTF-8 text of media type `application/json`. */
  datatype JsonContent = JsonContent(body: Json, mediaType: string)

  datatype HttpRequest = HttpRequest(
    verb: Method,
    url: RelativeUrl,
    headers: seq<(string, string)>,
    content: Option<JsonContent>)

  datatype HttpResponse = HttpResponse(statusCode: HttpStatusCode, body: string)

  /** A status in the 2xx range. */
  predicate IsSuccessStatusCode(code: HttpStatusCode)
  {
    200 <= code <= 299
  }

  /**
   * Builds the outgoing request. A body is attached only when there is a
   * payload AND the method is POST; a payload given with any other method is
   * dropped. The subscription key header is always attached.
   */
  function NewRequest(verb: Method, url: RelativeUrl, data: Option<Json>, key: string): (r: HttpRequest)
    ensures r.content.Some? <==> data.Some? && verb == Post
    ensures r.content.Some? ==> r.content.value == JsonContent(data.value, JsonMediaType)
    ensures r.verb == verb && r.url == url
    ensures r.headers == [(SubscriptionKeyHeader, key)]
  {
    var content := if data.Some? && verb == Post then Some(JsonContent(data.value, JsonMediaType)) else None;
    HttpRequest(verb, url, [(SubscriptionKeyHeader, key)], content)
  }

  /**
   * The collaborators a call needs from outside: transport, HTML decoding, JSON parsing.
   * `parse` gives `None` for text that is not JSON, and `Some(JNull)` both for the
   * literal `null` and for text holding no JSON value at all (whitespace only),
   * since the library's deserializer returns null for either.
   */
  datatype Wire = Wire(
    transport: HttpRequest -> HttpResponse,
    htmlDecode: string -> string,
    parse: string -> Option<Json>)

  /**
   * Turns a response into the caller's value or an exception. The body is
   * HTML-decoded first. A success status binds the body to the expected
   * type. A failure status with a non-empty body binds it as an error
   * envelope and throws it together with the status; a failure status with
   * an empty body throws the status alone.
   */
  function GetResponseContent<T>(response: HttpResponse, wire: Wire, bind: Json -> Bound<T>): (r: Outcome<T>)
    ensures var c := wire.htmlDecode(response.body);
            IsSuccessStatusCode(response.statusCode) ==>
              (r.Returned? <==> wire.parse(c).Some? && bind(wire.parse(c).value).Bound?)
    ensures var c := wire.htmlDecode(response.body);
            r.Returned? ==> IsSuccessStatusCode(response.statusCode) && r.value == bind(wire.parse(c).value).value
    ensures r.Threw? && r.exception.Service? ==>
              !IsSuccessStatusCode(response.statusCode) &&
              r.exception.exception.httpStatusCode == response.statusCode
    ensures !IsSuccessStatusCode(response.statusCode) && wire.htmlDecode(response.body) == "" ==>
              r == Threw(Service(QnaMakerExceptionWithStatus(response.statusCode)))
    ensures r.Threw? ==> !r.exception.IsArgumentError()
    ensures var c := wire.htmlDecode(response.body);
            wire.parse(c).None? && (IsSuccessStatusCode(response.statusCode) || c != "") ==> r == Threw(JsonReader)
    ensures var c := wire.htmlDecode(response.body);
            IsSuccessStatusCode(response.statusCode) && wire.parse(c).Some? && bind(wire.parse(c).value).Mismatch? ==>
              r == Threw(JsonSerialization)
    ensures var c := wire.htmlDecode(response.body);
            !IsSuccessStatusCode(response.statusCode) && c != "" && wire.parse(c).Some? ==>
              var e := BindErrorBody(wire.parse(c).value);
              && (e.Bound? && e.value.Some? ==>
                    r == Threw(Service(QnaMakerException(response.statusCode, e.value.value.error))))
              && (e == Bound(None) ==> r == Threw(NullReference))
              && (UnreadableErrorBody(wire.parse(c).value) ==> r == Threw(JsonReader))
              && (e.Mismatch? && !UnreadableErrorBody(wire.parse(c).value) ==> r == Threw(JsonSerialization))
  {
    var content := wire.htmlDecode(response.body);
    if IsSuccessStatusCode(response.statusCode) then
      match wire.parse(content)
      case None => Threw(JsonReader)
      case Some(j) =>
        (match bind(j)
         case Bound(v) => Returned(v)
         case Mismatch => Threw(JsonSerialization))
    else if content != "" then
      match wire.parse(content)
      case None => Threw(JsonReader)
      case Some(j) =>
        if UnreadableErrorBody(j) then Threw(JsonReader)
        else match BindErrorBody(j)
         case Bound(Some(envelope)) => Threw(Service(QnaMakerExceptionWithError(response.statusCode, envelope.error)))
         case Bound(None) => Threw(NullReference)
         case Mismatch => Threw(JsonSerialization)
    else
      Threw(Service(QnaMakerExceptionWithStatus(response.statusCode)))
  }

  /** A failure whose body is the service's error envelope throws that error with the status. */
  lemma ServiceErrorSurfaces<T>(response: HttpResponse, wire: Wire, bind: Json -> Bound<T>, envelope: QnaMakerErrorJson)
    requires !IsSuccessStatusCode(response.statusCode)
    requires wire.htmlDecode(response.body) != ""
    requires wire.parse(wire.htmlDecode(response.body)).Some?
    requires BindErrorBody(wire.parse(wire.htmlDecode(response.body)).value) == Bound(Some(envelope))
    ensures GetResponseContent(response, wire, bind) ==
            Threw(Service(QnaMakerException(response.statusCode, envelope.error)))
  {
  }

  /** A failure whose non-empty body is not JSON ends in the reader's exception, not a service error. */
  lemma UnreadableFailureBody<T>(response: HttpResponse, wire: Wire, bind: Json -> Bound<T>)
    requires !IsSuccessStatusCode(response.statusCode)
    requires wire.htmlDecode(response.body) != ""
    requires wire.parse(wire.htmlDecode(response.body)).None?
    ensures GetResponseContent(response, wire, bind) == Threw(JsonReader)
  {
  }

  /**
   * A failure whose non-empty body reads as null (the literal `null`,
   * whitespace only, or the JSON empty string) dereferences the missing envelope.
   */
  lemma NullFailureBody<T>(response: HttpResponse, wire: Wire, bind: Json -> Bound<T>)
    requires !IsSuccessStatusCode(response.statusCode)
    requires wire.htmlDecode(response.body) != ""
    requires wire.parse(wire.htmlDecode(response.body)) in {Some(JNull), Some(JString(""))}
    ensures GetResponseContent(response, wire, bind) == Threw(NullReference)
  {
  }

  /** An error member holding the empty string reads as a null error: the status is thrown alone. */
  lemma EmptyStringErrorIsNull<T>(response: HttpResponse, wire: Wire, bind: Json -> Bound<T>)
    requires !IsSuccessStatusCode(response.statusCode)
    requires wire.htmlDecode(response.body) != ""
    requires wire.parse(wire.htmlDecode(response.body)) == Some(JObject([("error", JString(""))]))
    ensures GetResponseContent(response, wire, bind) == Threw(Service(QnaMakerException(response.statusCode, None)))
  {
  }

  /**
   * An object or array where the error's `code` or `message` string should be
   * stops the JSON reader itself: the reader's exception, not a service error.
   */
  lemma StructuredErrorTextUnreadable<T>(response: HttpResponse, wire: Wire, bind: Json -> Bound<T>, code: Json, message: Json)
    requires !IsSuccessStatusCode(response.statusCode)
    requires wire.htmlDecode(response.body) != ""
    requires wire.parse(wire.htmlDecode(response.body)) == Some(JObject([("error", JObject([("code", code), ("message", message)]))]))
    requires code.JObject? || code.JArray? || message.JObject? || message.JArray?
    ensures GetResponseContent(response, wire, bind) == Threw(JsonReader)
  {
    var members := [("code", code), ("message", message)];
    assert members[..1] == [("code", code)];
    assert Lookup(members, "code") == Some(code);
    assert Lookup(members, "message") == Some(message);
    assert UnreadableErrorBody(JObject([("error", JObject(members))]));
  }

  /** A failure with an empty body throws the status alone, when decoding keeps "" empty. */
  lemma EmptyFailureCarriesStatusOnly<T>(response: HttpResponse, wire: Wire, bind: Json -> Bound<T>)
    requires !IsSuccessStatusCode(response.statusCode)
    requires response.body == "" && wire.htmlDecode("") == ""
    ensures GetResponseContent(response, wire, bind) == Threw(Service(QnaMakerException(response.statusCode, None)))
  {
  }

  /** The requests a call put on the wire (at most one) and what it gave back. */
  datatype Call<+T> = Call(sent: Option<HttpRequest>, outcome: Outcome<T>)

  /** A call that failed validation: nothing sent. */
  function Rejected<T>(e: ClientException): (c: Call<T>)
    ensures c.sent.None? && c.outcome == Threw(e)
  {
    Call(None, Threw(e))
  }

  /** Sends one request and classifies the response. */
  function Send<T>(key: string, verb: Method, url: RelativeUrl, data: Option<Json>, wire: Wire, bind: Json -> Bound<T>): (c: Call<T>)
    ensures c.sent == Some(NewRequest(verb, url, data, key))
    ensures c.sent.value.headers == [(SubscriptionKeyHeader, key)]
    ensures c.outcome == GetResponseContent(wire.transport(c.sent.value), wire, bind)
    ensures c.outcome.Threw? ==> !c.outcome.exception.IsArgumentError()
  {
    var request := NewRequest(verb, url, data, key);
    Call(Some(request), GetResponseContent(wire.transport(request), wire, bind))
  }

  /** Sends one request and returns the raw body, whatever the status and without HTML decoding. */
  function SendRaw(key: string, verb: Method, url: RelativeUrl, data: Option<Json>, wire: Wire): (c: Call<string>)
    ensures c.sent == Some(NewRequest(verb, url, data, key))
    ensures c.outcome == Returned(wire.transport(c.sent.value).body)
  {
    var request := NewRequest(verb, url, data, key);
    Call(Some(request), Returned(wire.transport(request).body))
  }
}

=== FILE: json.dfy ===
/**
 * JSON values as the client's serializer produces and consumes them, without
 * their text form. Objects keep their members in declaration order, as the
 * serializer writes them. Binding a JSON value back to a typed record follows
 * the serializer's defaults for objects without repeated keys: an absent
 * member leaves the record's default in place, unknown members are ignored,
 * and a value of the wrong shape is a mismatch. A repeated key is resolved by
 * taking its last value, which is what the serializer does for scalar
 * members only; its merging of repeated object and array members is not
 * modelled.
 */
module Json {
  import opened Nullable

  datatype Json =
    | JNull
    | JBool(b: bool)
    | JInt(i: int)
    | JString(s: string)
    | JArray(items: seq<Json>)
    | JObject(members: seq<(string, Json)>)

  /** A C# `string`, which may be null. */
  type NString = Option<string>

  /** A C# `int`. */
  type Int32 = x: int | -0x8000_0000 <= x < 0x8000_0000

  /** The result of binding a JSON value to a typed value. */
  datatype Bound<+T> = Bound(value: T) | Mismatch

  /** The member names of an object, in order. */
  function Keys(members: seq<(string, Json)>): (ks: seq<string>)
    ensures |ks| == |members|
    ensures forall i :: 0 <= i < |members| ==> ks[i] == members[i].0
  {
    if members == [] then [] else [members[0].0] + Keys(members[1..])
  }

  /** The value of member `key`; when the key occurs twice the last value is taken. */
  function Lookup(members: seq<(string, Json)>, key: string): (r: Option<Json>)
    ensures r.None? <==> forall i :: 0 <= i < |members| ==> members[i].0 != key
    ensures r.Some? ==>
              exists i :: 0 <= i < |members| && members[i] == (key, r.value) &&
                          forall j :: i < j < |members| ==> members[j].0 != key
  {
    if members == [] then None
    else if members[|members| - 1].0 == key then Some(members[|members| - 1].1)
    else Lookup(members[..|members| - 1], key)
  }

  /** Binds member `key` of an object, keeping `default` when it is absent. */
  function BindMember<T>(members: seq<(string, Json)>, key: string, bind: Json -> Bound<T>, default: T): (r: Bound<T>)
    ensures (forall i :: 0 <= i < |members| ==> members[i].0 != key) ==> r == Bound(default)
  {
    match Lookup(members, key)
    case None => Bound(default)
    case Some(v) => bind(v)
  }

  function StringJson(s: NString): (j: Json)
  {
    match s
    case None => JNull
    case Some(t) => JString(t)
  }

  function BindString(j: Json): (r: Bound<NString>)
    ensures r.Bound? <==> j.JNull? || j.JString?
  {
    match j
    case JNull => Bound(None)
    case JString(t) => Bound(Some(t))
    case _ => Mismatch
  }

  lemma StringRoundTrip(s: NString)
    ensures BindString(StringJson(s)) == Bound(s)
  {
  }

  /** A non-null string, as a list element. */
  function TextJson(s: string): Json
  {
    JString(s)
  }

  function BindText(j: Json): (r: Bound<string>)
    ensures r.Bound? <==> j.JString?
    ensures r.Bound? ==> j == JString(r.value)
  {
    match j
    case JString(t) => Bound(t)
    case _ => Mismatch
  }

  /** An `int` member: a number outside the 32-bit range does not bind. */
  function BindInt32(j: Json): (r: Bound<Int32>)
    ensures r.Bound? <==> j.JInt? && -0x8000_0000 <= j.i < 0x8000_0000
    ensures r.Bound? ==> j == JInt(r.value)
  {
    match j
    case JInt(i) => if -0x8000_0000 <= i < 0x8000_0000 then Bound(i) else Mismatch
    case _ => Mismatch
  }

  /** A list of items, or null. */
  function ArrayJson<T>(xs: Option<seq<T>>, item: T -> Json): (j: Json)
    ensures xs.None? <==> j.JNull?
    ensures xs.Some? ==> j.JArray? && |j.items| == |xs.value|
    ensures xs.Some? ==> forall i :: 0 <= i < |xs.value| ==> j.items[i] == item(xs.value[i])
  {
    match xs
    case None => JNull
    case Some(s) => JArray(seq(|s|, i requires 0 <= i < |s| => item(s[i])))
  }

  /** Binds every element of an array; one mismatching element spoils the whole. */
  function BindItems<T>(js: seq<Json>, bind: Json -> Bound<T>): (r: Bound<seq<T>>)
    ensures r.Mismatch? <==> exists i :: 0 <= i < |js| && bind(js[i]).Mismatch?
    ensures r.Bound? ==> |r.value| == |js|
    ensures r.Bound? ==> forall i :: 0 <= i < |js| ==> bind(js[i]) == Bound(r.value[i])
  {
    if js == [] then Bound([])
    else
      match (bind(js[0]), BindItems(js[1..], bind))
      case (Bound(x), Bound(xs)) => Bound([x] + xs)
      case _ => Mismatch
  }

  function BindArray<T>(j: Json, bind: Json -> Bound<T>): (r: Bound<Option<seq<T>>>)
    ensures j.JNull? ==> r == Bound(None)
    ensures r.Bound? && r.value.Some? ==> j.JArray? && |r.value.value| == |j.items|
    ensures !j.JNull? && !j.JArray? ==> r.Mismatch?
  {
    match j
    case JNull => Bound(None)
    case JArray(items) =>
      (match BindItems(items, bind)
       case Bound(xs) => Bound(Some(xs))
       case Mismatch => Mismatch)
    case _ => Mismatch
  }

  /** Serializing a list and binding it back gives the list, whenever its items round-trip. */
  lemma {:induction false} ArrayRoundTrip<T>(xs: Option<seq<T>>, item: T -> Json, bind: Json -> Bound<T>)
    requires forall x :: bind(item(x)) == Bound(x)
    ensures BindArray(ArrayJson(xs, item), bind) == Bound(xs)
  {
    if xs.Some? {
      var j := ArrayJson(xs, item);
      var r := BindItems(j.items, bind);
      assert r.Bound?;
      assert r.value == xs.value;
    }
  }
}

=== FILE: nullable.dfy ===
/** C# reference values that may be null. */
module Nullable {

  /** `None` is a null reference; `Some(v)` is a reference to `v`. */
  datatype Option<T> = None | Some(value: T) {

    /** The null-coalescing `x ?? fallback` of C#. */
    function Coalesce(fallback: T): (r: T)
      ensures Some? ==> r == value
      ensures None? ==> r == fallback
    {
      if Some? then value else fallback
    }
  }
}

=== FILE: quotes.dfy ===
/**
 * The download endpoint answers with a bare JSON string, quotes included; the
 * client removes every `"` character from it to obtain the blob URL.
 */
module Quotes {

  const Quote: char := '"'

  /** The text with every quote character removed. */
  function StripQuotes(s: string): (r: string)
    ensures Quote !in r
    ensures |r| <= |s|
  {
    if s == [] then []
    else if s[0] == Quote then StripQuotes(s[1..])
    else [s[0]] + StripQuotes(s[1..])
  }

  /** `r` can be obtained from `s` by deleting characters, keeping the rest in order. */
  predicate IsSubsequence(r: string, s: string)
    decreases |s|
  {
    if r == [] then true
    else if s == [] then false
    else (r[0] == s[0] && IsSubsequence(r[1..], s[1..])) || IsSubsequence(r, s[1..])
  }

  /** Every character other than a quote survives, as often as it occurred. */
  lemma {:induction false} StripKeepsOtherCharacters(s: string)
    ensures multiset(StripQuotes(s)) == multiset(s)[Quote := 0]
  {
    if s != [] {
      StripKeepsOtherCharacters(s[1..]);
      assert s == [s[0]] + s[1..];
    }
  }

  /** The survivors keep their original order. */
  lemma {:induction false} StripKeepsOrder(s: string)
    ensures IsSubsequence(StripQuotes(s), s)
  {
    if s != [] {
      StripKeepsOrder(s[1..]);
      var r := StripQuotes(s);
      if s[0] != Quote {
        assert r[0] == s[0] && r[1..] == StripQuotes(s[1..]);
      }
    }
  }

  /** The result is as long as the input less its quotes. */
  lemma StripLength(s: string)
    ensures |StripQuotes(s)| == |s| - multiset(s)[Quote]
  {
    StripKeepsOtherCharacters(s);
    assert |multiset(StripQuotes(s))| == |multiset(s)| - multiset(s)[Quote];
  }

  /** Text without quotes is left alone. */
  lemma {:induction false} StripQuoteFree(s: string)
    requires Quote !in s
    ensures StripQuotes(s) == s
  {
    if s != [] {
      assert s[0] in s;
      StripQuoteFree(s[1..]);
    }
  }

  /** Stripping twice is stripping once. */
  lemma StripIdempotent(s: string)
    ensures StripQuotes(StripQuotes(s)) == StripQuotes(s)
  {
  }

  /** Stripping distributes over concatenation. */
  lemma {:induction false} StripConcat(a: string, b: string)
    ensures StripQuotes(a + b) == StripQuotes(a) + StripQuotes(b)
  {
    if a != [] {
      assert (a + b)[0] == a[0];
      assert (a + b)[1..] == a[1..] + b;
      StripConcat(a[1..], b);
      if a[0] != Quote {
        assert [a[0]] + StripQuotes(a[1..]) + StripQuotes(b) == [a[0]] + (StripQuotes(a[1..]) + StripQuotes(b));
      }
    } else {
      assert a + b == b;
    }
  }

  /** Quote-free text wrapped in quotes strips back to that text. */
  lemma UnquoteJsonString(u: string)
    requires Quote !in u
    ensures StripQuotes([Quote] + u + [Quote]) == u
  {
    StripConcat([Quote] + u, [Quote]);
    StripConcat([Quote], u);
    StripQuoteFree(u);
  }
}

=== FILE: requests.dfy ===
/**
 * The request data contracts: their shapes, the defaults a fresh instance
 * carries, and the JSON body each one serializes to. The knowledge-base id of
 * an update or generate-answer request is marked as ignored by the
 * serializer, so it never reaches a body: it travels in the URL path.
 */
module Requests {
  import opened Nullable
  import opened Json

  /** A knowledge-base identity: an opaque 128-bit value. */
  type Guid = x: nat | x < 0x1_0000_0000_0000_0000_0000_0000_0000_0000

  /** `Guid.Empty`, the value of an identity nobody has set. */
  const EmptyGuid: Guid := 0

  /** The request that holds nothing but the identity (delete, download, publish). */
  datatype DeleteKnowledgeBaseRequest = DeleteKnowledgeBaseRequest(knowledgeBaseId: Guid)
  datatype DownloadKnowledgeBaseRequest = DownloadKnowledgeBaseRequest(knowledgeBaseId: Guid)
  datatype PublishKnowledgeBaseRequest = PublishKnowledgeBaseRequest(knowledgeBaseId: Guid)

  // ----- QnaPair -----

  datatype QnaPair = QnaPair(question: NString, answer: NString)

  function QnaPairJson(p: QnaPair): (j: Json)
    ensures j.JObject? && Keys(j.members) == ["question", "answer"]
  {
    JObject([("question", StringJson(p.question)), ("answer", StringJson(p.answer))])
  }

  function BindQnaPair(j: Json): (r: Bound<QnaPair>)
  {
    match j
    case JObject(ms) =>
      var q := BindMember(ms, "question", BindString, None);
      var a := BindMember(ms, "answer", BindString, None);
      if q.Bound? && a.Bound? then Bound(QnaPair(q.value, a.value)) else Mismatch
    case _ => Mismatch
  }

  lemma QnaPairRoundTrip(p: QnaPair)
    ensures BindQnaPair(QnaPairJson(p)) == Bound(p)
  {
  }

  lemma QnaPairsRoundTrip(xs: Option<seq<QnaPair>>)
    ensures BindArray(ArrayJson(xs, QnaPairJson), BindQnaPair) == Bound(xs)
  {
    forall p ensures BindQnaPair(QnaPairJson(p)) == Bound(p) {
      QnaPairRoundTrip(p);
    }
    ArrayRoundTrip(xs, QnaPairJson, BindQnaPair);
  }

  lemma UrlsRoundTrip(xs: Option<seq<string>>)
    ensures BindArray(ArrayJson(xs, TextJson), BindText) == Bound(xs)
  {
    ArrayRoundTrip(xs, TextJson, BindText);
  }

  // ----- CreateKnowledgeBaseRequest -----

  datatype CreateKnowledgeBaseRequest = CreateKnowledgeBaseRequest(
    name: NString,
    qnaPairs: Option<seq<QnaPair>>,
    urls: Option<seq<string>>)

  /** A fresh create request: no name, and empty (not null) pair and URL lists. */
  function NewCreateKnowledgeBaseRequest(): (r: CreateKnowledgeBaseRequest)
    ensures r.name.None?
    ensures r.qnaPairs == Some([]) && r.urls == Some([])
  {
    CreateKnowledgeBaseRequest(None, Some([]), Some([]))
  }

  /** The create body: exactly `name`, `qnaPairs` and `urls`, nulls written as null. */
  function CreateBody(r: CreateKnowledgeBaseRequest): (j: Json)
    ensures j.JObject? && Keys(j.members) == ["name", "qnaPairs", "urls"]
  {
    JObject([
      ("name", StringJson(r.name)),
      ("qnaPairs", ArrayJson(r.qnaPairs, QnaPairJson)),
      ("urls", ArrayJson(r.urls, TextJson))])
  }

  /** Reads a create request back from JSON, starting from a fresh instance. */
  function BindCreate(j: Json): (r: Bound<Option<CreateKnowledgeBaseRequest>>)
  {
    match j
    case JNull => Bound(None)
    case JObject(ms) =>
      var initial := NewCreateKnowledgeBaseRequest();
      var name := BindMember(ms, "name", BindString, initial.name);
      var pairs := BindMember(ms, "qnaPairs", (v: Json) => BindArray(v, BindQnaPair), initial.qnaPairs);
      var urls := BindMember(ms, "urls", (v: Json) => BindArray(v, BindText), initial.urls);
      if name.Bound? && pairs.Bound? && urls.Bound?
      then Bound(Some(CreateKnowledgeBaseRequest(name.value, pairs.value, urls.value)))
      else Mismatch
    case _ => Mismatch
  }

  /** Reading the create body back yields the request it was made from. */
  lemma CreateRoundTrip(r: CreateKnowledgeBaseRequest)
    ensures BindCreate(CreateBody(r)) == Bound(Some(r))
  {
    var ms := CreateBody(r).members;
    assert Lookup(ms, "urls") == Some(ArrayJson(r.urls, TextJson));
    assert Lookup(ms, "qnaPairs") == Some(ArrayJson(r.qnaPairs, QnaPairJson));
    assert Lookup(ms, "name") == Some(StringJson(r.name));
    StringRoundTrip(r.name);
    QnaPairsRoundTrip(r.qnaPairs);
    UrlsRoundTrip(r.urls);
  }

  /** An empty JSON object reads back as a fresh create request. */
  lemma EmptyObjectIsFreshCreate()
    ensures BindCreate(JObject([])) == Bound(Some(NewCreateKnowledgeBaseRequest()))
  {
  }

  // ----- UpdateActions and UpdateKnowledgeBaseRequest -----

  datatype UpdateActions = UpdateActions(qnaPairs: Option<seq<QnaPair>>, urls: Option<seq<string>>)

  /** A fresh `UpdateActions`: empty (not null) pair and URL lists. */
  function NewUpdateActions(): (a: UpdateActions)
    ensures a.qnaPairs == Some([]) && a.urls == Some([])
  {
    UpdateActions(Some([]), Some([]))
  }

  datatype UpdateKnowledgeBaseRequest = UpdateKnowledgeBaseRequest(
    knowledgeBaseId: Guid,
    add: Option<UpdateActions>,
    delete: Option<UpdateActions>)

  /** A fresh update request: unset identity, and empty add and delete actions. */
  function NewUpdateKnowledgeBaseRequest(): (r: UpdateKnowledgeBaseRequest)
    ensures r.knowledgeBaseId == EmptyGuid
    ensures r.add == Some(NewUpdateActions()) && r.delete == Some(NewUpdateActions())
  {
    UpdateKnowledgeBaseRequest(EmptyGuid, Some(NewUpdateActions()), Some(NewUpdateActions()))
  }

  /** Add and delete share one shape: `qnaPairs` and `urls`. */
  function UpdateActionsJson(a: Option<UpdateActions>): (j: Json)
    ensures a.None? <==> j.JNull?
    ensures a.Some? ==> j.JObject? && Keys(j.members) == ["qnaPairs", "urls"]
  {
    match a
    case None => JNull
    case Some(x) => JObject([("qnaPairs", ArrayJson(x.qnaPairs, QnaPairJson)), ("urls", ArrayJson(x.urls, TextJson))])
  }

  function BindUpdateActions(j: Json): (r: Bound<Option<UpdateActions>>)
  {
    match j
    case JNull => Bound(None)
    case JObject(ms) =>
      var initial := NewUpdateActions();
      var pairs := BindMember(ms, "qnaPairs", (v: Json) => BindArray(v, BindQnaPair), initial.qnaPairs);
      var urls := BindMember(ms, "urls", (v: Json) => BindArray(v, BindText), initial.urls);
      if pairs.Bound? && urls.Bound? then Bound(Some(UpdateActions(pairs.value, urls.value))) else Mismatch
    case _ => Mismatch
  }

  lemma UpdateActionsRoundTrip(a: Option<UpdateActions>)
    ensures BindUpdateActions(UpdateActionsJson(a)) == Bound(a)
  {
    if a.Some? {
      var ms := UpdateActionsJson(a).members;
      assert Lookup(ms, "urls") == Some(ArrayJson(a.value.urls, TextJson));
      assert Lookup(ms, "qnaPairs") == Some(ArrayJson(a.value.qnaPairs, QnaPairJson));
      QnaPairsRoundTrip(a.value.qnaPairs);
      UrlsRoundTrip(a.value.urls);
    }
  }

  /** The update body: exactly `add` and `delete`; the identity is not serialized. */
  function UpdateBody(r: UpdateKnowledgeBaseRequest): (j: Json)
    ensures j.JObject? && Keys(j.members) == ["add", "delete"]
  {
    JObject([("add", UpdateActionsJson(r.add)), ("delete", UpdateActionsJson(r.delete))])
  }

  /** Reads an update request back; the identity keeps its default, whatever the JSON says. */
  function BindUpdate(j: Json): (r: Bound<Option<UpdateKnowledgeBaseRequest>>)
    ensures r.Bound? && r.value.Some? ==> r.value.value.knowledgeBaseId == EmptyGuid
  {
    match j
    case JNull => Bound(None)
    case JObject(ms) =>
      var initial := NewUpdateKnowledgeBaseRequest();
      var add := BindMember(ms, "add", BindUpdateActions, initial.add);
      var delete := BindMember(ms, "delete", BindUpdateActions, initial.delete);
      if add.Bound? && delete.Bound?
      then Bound(Some(UpdateKnowledgeBaseRequest(initial.knowledgeBaseId, add.value, delete.value)))
      else Mismatch
    case _ => Mismatch
  }

  /** The update body determines add and delete, and nothing about the identity. */
  lemma UpdateRoundTrip(r: UpdateKnowledgeBaseRequest)
    ensures BindUpdate(UpdateBody(r)) == Bound(Some(r.(knowledgeBaseId := EmptyGuid)))
    ensures forall id: Guid :: UpdateBody(r.(knowledgeBaseId := id)) == UpdateBody(r)
  {
    var ms := UpdateBody(r).members;
    assert Lookup(ms, "delete") == Some(UpdateActionsJson(r.delete));
    assert Lookup(ms, "add") == Some(UpdateActionsJson(r.add));
    UpdateActionsRoundTrip(r.add);
    UpdateActionsRoundTrip(r.delete);
  }

  // ----- GenerateAnswerRequest -----

  /** `top` is how many ranked answers the service should return. */
  const DefaultTop: Int32 := 1

  datatype GenerateAnswerRequest = GenerateAnswerRequest(knowledgeBaseId: Guid, question: NString, top: Int32)

  /** A fresh generate-answer request: unset identity, no question, `top` of one. */
  function NewGenerateAnswerRequest(): (r: GenerateAnswerRequest)
    ensures r.knowledgeBaseId == EmptyGuid && r.question.None? && r.top == 1
  {
    GenerateAnswerRequest(EmptyGuid, None, DefaultTop)
  }

  /** The generate-answer body: exactly `question` and `top`. */
  function GenerateAnswerBody(r: GenerateAnswerRequest): (j: Json)
    ensures j.JObject? && Keys(j.members) == ["question", "top"]
  {
    JObject([("question", StringJson(r.question)), ("top", JInt(r.top))])
  }

  function BindGenerateAnswer(j: Json): (r: Bound<Option<GenerateAnswerRequest>>)
    ensures r.Bound? && r.value.Some? ==> r.value.value.knowledgeBaseId == EmptyGuid
  {
    match j
    case JNull => Bound(None)
    case JObject(ms) =>
      var initial := NewGenerateAnswerRequest();
      var question := BindMember(ms, "question", BindString, initial.question);
      var top := BindMember(ms, "top", BindInt32, initial.top);
      if question.Bound? && top.Bound?
      then Bound(Some(GenerateAnswerRequest(initial.knowledgeBaseId, question.value, top.value)))
      else Mismatch
    case _ => Mismatch
  }

  /** Reading `question` and `top` back from the body yields the values sent. */
  lemma GenerateAnswerRoundTrip(r: GenerateAnswerRequest)
    ensures BindGenerateAnswer(GenerateAnswerBody(r)) == Bound(Some(r.(knowledgeBaseId := EmptyGuid)))
    ensures forall id: Guid :: GenerateAnswerBody(r.(knowledgeBaseId := id)) == GenerateAnswerBody(r)
  {
  }

  /** A body that omits `top` reads back with `top` of one. */
  lemma MissingTopDefaultsToOne(q: string)
    ensures BindGenerateAnswer(JObject([("question", JString(q))])) ==
            Bound(Some(GenerateAnswerRequest(EmptyGuid, Some(q), 1)))
  {
  }
}
